=== FILE: README.md ===
# Oscillogram viewer: verified model of the viewport logic

The program plots multi-channel time series ("oscillograms") loaded from a
CSV/XLSX file as 3D lines in a top-down OpenGL view. It has one check box per
channel to show or hide the channel's line, and a coordinate grid whose
level of detail follows the mouse wheel. Besides building widgets, `main.py`
computes a caption from the file path and keeps a little state of its own
that it updates on user input. That logic is written here as immutable
records and pure functions, in these modules:

- `FileName` (`file_name.dfy`) covers `find_file_name`, the window-caption name
  of the loaded file. It writes out Python's `str.rfind` and slice semantics,
  including the negative slice stop that `rfind` returns when there is no dot.
- `GridItem` (`grid_item.dfy`) covers `MyGLGridItem.setScale`,
  `doubleUpSpacing` and `doubleDownSpacing`. The state is the grid size `high`
  and the net number of times the item's transform has been doubled.
- `ViewWidget` (`view_widget.dfy`) covers `MyGLViewWidget`: the wheel-tick
  counter `scale_iterator` that drives the grid's level of detail, the camera
  zoom, and delta-based drag panning. Events are wheel, move and release.
  `Run` handles a sequence of them in delivery order.
- `ViewProperties` (`view_properties.dfy`) holds lemmas over event sequences:
  - the counter band
  - how far apart grid changes are
  - closed forms for runs of same-direction ticks
  - the zoom-in-then-out round trip
  - telescoping pan deltas
- `Visibility` (`visibility.dfy`) covers `Graphic3D.press_check_box` and
  `change_all_check_boxes`, plus the click behaviour wired up in the
  constructor. Check-box states are a map from channel key to bool, and the
  scene is a set of items.

Camera zoom is multiplicative. Each wheel event multiplies the distance, or
the field of view when Control is held, by 0.999^delta. The model keeps the
accumulated exponents (`distancePow`, `fovPow`) instead of floats. So after
any events, `distance == d0 * 0.999^distancePow` in exact arithmetic.

Facts about the wheel handler in `main.py` that the model states and the
lemmas rely on:

- **Counter reset:** after a level-of-detail change the counter restarts at 0
  (main.py:121, main.py:124).
- **No hysteresis band, no minimum-spacing guard, no clamp:** the only state
  the handler consults is the counter itself (main.py:114-124), and
  `doubleUpSpacing` rescales unconditionally (main.py:66-67).
- **Closing state:** five positive ticks from 0 leave the counter at 0. On
  an even-sized grid (as after construction, when the grid size
  `4 * axis_length` is even), `n` positive ticks followed by `n` negative
  ones restore the counter and the grid for every `n` exactly when the
  counter starts at most 0 (`ZoomInThenOutRestores`). From a positive
  counter `c`, `5 - c` ticks each way leave the grid refined
  (`PositiveCounterBreaksRoundTrip`).

## Model

| member | source | states |
|---|---|---|
| FileName.RFind | main.py:41-42 | Python `rfind`: the result is -1 or an index holding the character, and no later index holds it |
| FileName.SliceBound | main.py:43 | Python's slice-bound adjustment: a bound inside `[0, n]` is kept, a larger one saturates at `n`, a negative one counts from the end and saturates at 0 |
| FileName.Slice | main.py:43 | Python `s[start:stop]`: a contiguous piece of `s` starting at the adjusted start, of length adjusted stop minus adjusted start, or empty when the stop does not exceed the start |
| FileName.FindFileName | main.py:40-43 | the name is a contiguous piece of the path starting just after the last '/' (index 0 if none), so it never contains '/' |
| FileName.StemOfComposedPath | main.py:40-43 | round trip: for any directory prefix, stem (dots allowed) and dot-free extension, the name of `dir + stem + "." + ext` is `stem` |
| FileName.CsvExample | main.py:40-43 | `"dir/name.csv"` gives `"name"` |
| FileName.EntryPointExample | main.py:246 | the file opened by the entry point, `"small_test.csv"`, gives the caption name `"small_test"` |
| FileName.DotlessBaseName | main.py:40-43 | when the last path component has no dot, the name is that component minus its last character; it is empty if a dot sits in the directory part or the component is empty |
| FileName.DotlessExample | main.py:40-43 | `"dir/name"` gives `"nam"` |
| GridItem.Init | main.py:46-54 | a new grid has the given size and an untouched transform (level 0) |
| GridItem.SetScale | main.py:57-64 | the size is even after every call; with factor 2 it lies in `[high // 2, high // 2 + 1]`, the least even number not below `high // 2`, so an even grid never covers less of the world and widens by at most one new cell (two old cells, one on each side); with factor 0.5 it is exactly `2 * high`; the transform level moves by one |
| GridItem.DoubleUp | main.py:66-67 | `doubleUpSpacing` doubles the transform (level up by one) and leaves an even size in `[high // 2, high // 2 + 1]` |
| GridItem.DoubleDown | main.py:69-70 | `doubleDownSpacing` doubles the size exactly and halves the transform (level down by one) |
| GridItem.DownThenUpRestores | main.py:57-70 | `doubleDownSpacing` then `doubleUpSpacing` restores an even-sized grid exactly |
| GridItem.UpThenDownRestoresIff | main.py:57-70 | `doubleUpSpacing` then `doubleDownSpacing` restores the grid if and only if its size is a multiple of 4 |
| GridItem.IterateShape | main.py:57-70 | after one or more rescalings the size is even, and the transform level has moved by the number of calls |
| GridItem.DownUpIterateRestores | main.py:57-70 | k refinements followed by k coarsenings restore an even-sized grid |
| ViewWidget.Init | main.py:74-81 | a new widget has counter 0, no recorded drag position, no grid calls, the starting camera distance, field of view and pan, and a freshly built grid (level 0) of size `4 * axis_length` |
| ViewWidget.WheelDelta | main.py:108-110 | the delta is the horizontal component when that is non-zero and the vertical one otherwise; it is zero exactly when both components are |
| ViewWidget.OnWheel | main.py:107-127 | a wheel event never touches the drag state and keeps the counter in (-5, 5); it adds at most one grid call, and the grid changes only by that call; each call costs a full five-tick swing of the counter |
| ViewWidget.OnMove | main.py:97-105 | a move never changes the level of detail or the zoom, and always records the new position |
| ViewWidget.OnRelease | main.py:87-95 | a release forgets the drag position and changes nothing else |
| ViewProperties.CounterStaysInBand | main.py:114-124 | from a counter in [-4, 4], any event sequence leaves the counter in [-4, 4] |
| ViewProperties.LodCallsSpacedOut | main.py:114-124 | grid calls only accumulate, and 5 × (new grid calls) + abs(final counter) ≤ abs(initial counter) + number of events, so n events from 0 make at most n/5 calls |
| ViewProperties.ZoomInRun | main.py:114-126 | any run of n positive ticks from inside the band, whatever their deltas, ends in the reference state: counter `(c+n) mod 5` (or `c+n` while negative), `(c+n)/5` refinements logged and applied, distance exponent up by the sum of the deltas (at least n), fov and pan unchanged |
| ViewProperties.ZoomOutRun | main.py:114-126 | any run of n non-positive ticks from inside the band ends in the reference state: counter `-((n-c) mod 5)` (or `c-n` while positive), `(n-c)/5` coarsenings logged and applied, distance exponent changed by the sum of the deltas (never up), fov and pan unchanged |
| ViewProperties.ZoomInClosedStep | main.py:114-126 | the positive-tick reference state advances by exactly one tick under the wheel handler, adding that tick's delta to the exponent |
| ViewProperties.ZoomOutClosedStep | main.py:114-126 | the negative-tick reference state advances by exactly one tick under the wheel handler, adding that tick's delta to the exponent |
| ViewProperties.FiveZoomInTicks | main.py:114-121 | any five positive ticks from counter 0 cause exactly one `doubleDownSpacing` and leave the counter at 0; the distance exponent moves by their summed deltas |
| ViewProperties.FiveZoomOutTicks | main.py:114-124 | any five non-positive ticks from counter 0 cause exactly one `doubleUpSpacing` and leave the counter at 0; the distance exponent moves by their summed deltas |
| ViewProperties.ZeroDeltaIsNegativeTick | main.py:108-117 | a wheel event with both components zero counts as a negative tick: the counter drops (coarsening the grid from -4) and the distance is unchanged |
| ViewProperties.CtrlWheelOnlyChangesFov | main.py:111-112 | with Control held, only the field of view changes; counter, grid, grid calls and distance stay as they were |
| ViewProperties.ZoomInThenOutRestores | main.py:107-127 | from any counter in [-4, 0] on an even grid, any n positive ticks then any n non-positive ticks return the counter to its start and the grid to its original size and transform, logging k refinements then k coarsenings (k = n/5 from counter 0); the distance exponent moves by all the deltas |
| ViewProperties.RoundTripArith | main.py:114-124 | from a counter c in [-4, 0], the counter arithmetic of n positive then n negative ticks returns to c, and the coarsenings match the refinements in number |
| ViewProperties.PositiveCounterBreaksRoundTrip | main.py:114-124 | from every positive counter c, 5 − c positive ticks then 5 − c non-positive ticks leave the counter at c − 5 and the grid refined once; with `ZoomInThenOutRestores` the round trip holds for every n exactly when the counter is at most 0 |
| ViewProperties.FirstMoveAfterReleaseDoesNotPan | main.py:94-101 | after a release the first move records its position and does not pan |
| ViewProperties.DragPansByDisplacement | main.py:97-105 | a drag through p0…pn that starts with no recorded position pans by exactly pn − p0, and changes nothing but the drag state |
| ViewProperties.ReleaseThenDrag | main.py:94-105 | release then a drag through p0…pn pans by pn − p0, whatever was recorded before |
| Visibility.Init | main.py:158-207 | the built dialog, with distinct keys and at most 32 channels (one palette colour each), keeps the keys in order, has one box per key, every box checked, and a scene holding exactly the lines of its channels plus the two axes and the grid; it is consistent |
| Visibility.PressCheckBox | main.py:223-227 | the channel's line is in the scene exactly when its box is checked; no box and no other scene item changes |
| Visibility.Click | main.py:163-167 | a click flips exactly that box, its line follows the new state, nothing else changes, and consistency is preserved; on a consistent panel the line is absent exactly when the box becomes checked, so the handler adds only an absent line and removes only a present one |
| Visibility.ClickAll | main.py:163-167 | clicking a list of boxes in turn keeps the keys and the set of boxes, and preserves consistency |
| Visibility.ClickAllFlips | main.py:163-167 | clicking distinct boxes in turn flips exactly those boxes, leaves every other box alone, and moves no axis or grid item |
| Visibility.PressOnConsistentIsNoOp | main.py:223-227 | of the set scene only: pressing without a flip before it changes nothing on a consistent panel; the program never makes that call (its handler runs only from a click, main.py:167), and on a pyqtgraph list it would add a shown line twice or fail to remove a hidden one |
| Visibility.ClickTwiceRestores | main.py:223-227 | clicking the same box twice restores a consistent panel exactly |
| Visibility.DifferingSelects | main.py:237-240 | the differing-keys selection holds exactly the keys whose state differs from the target, and distinct keys stay distinct |
| Visibility.ProgressClick | main.py:237-240 | visiting a key whose box differs clicks it and extends the bulk operation's progress by one key |
| Visibility.ProgressSkip | main.py:237-240 | visiting a key whose box already matches the target leaves everything unchanged and extends the progress by one key |
| Visibility.ProgressDone | main.py:237-240 | once every key has been visited, every box equals the target and the clicked keys are exactly the differing ones, each once |
| Visibility.ChangeAllCheckBoxes | main.py:236-240 | the result is the panel obtained by clicking the returned boxes in order; those are exactly the boxes that differed, once each, in key order; afterwards every box equals the target, axes and grid are untouched, and a consistent scene stays consistent |

## Left out

- Qt/pyqtgraph widget construction, layouts, style sheets, buttons, signal wiring and `update()` repaints (main.py:130-221). They only arrange foreign Qt widgets and hold no state the handlers read. The wiring is modelled only by its effect: a click runs `press_check_box`, and the two bulk buttons call `change_all_check_boxes(True/False)`.
- CSV/XLSX ingestion through pandas, the channel polylines and the axis/extent arithmetic (main.py:143-200). It reads files through pandas. Channel keys are taken as given distinct strings.
- Floating-point camera arithmetic (`0.999**delta`, main.py:112, main.py:126). Zoom is kept as exact exponents. Float rounding is not modelled.
- Click-to-center in `mouseReleaseEvent` (main.py:89-93) and the press position it compares against (main.py:83-85). They depend on the widget size, float halving and pyqtgraph's view-relative pan. The release is modelled only as resetting the drag position. `_prev_zoom_pos` is never read and is left out.
- `pan(..., relative="view")` is modelled as adding the pixel delta to an accumulated offset. The conversion from view-relative pixels to world units inside pyqtgraph is not modelled.
- GridItem.SetScale: models `high` as an integer. Python computes `high // 0.5` on floats, which is exactly `2 * high` for integral values below 2^52. The initial size `16 * 2 * max(x_max, y_max)` is integral when 32 · max(x_max, y_max) is, for example when the data maxima are integers. Non-integral sizes are not modelled.
- GridItem.SetScale: models only the two factors the widget passes (2 and 0.5). The default argument `scale = 1.0` is never used.
- The pyqtgraph `scale(...)` and `setSize` internals are modelled only as the transform level and the size value.
- Visibility.PressCheckBox: the scene is a set. pyqtgraph's `addItem` appends to a list and `removeItem` fails on an absent item. The handler runs only right after a click flips the box, and on a consistent panel the line is then absent exactly when the box became checked (`Click`), so neither case arises.
- Visibility.PressCheckBox: requires the key to exist, because the source indexes `figures[name]` without a guard. Only keys created at build time are ever passed.
- Visibility.Init: requires at most 32 channels, because `COLORS[i]` raises beyond the palette. Colours themselves are not modelled.

=== FILE: file_name.dfy ===
/**
 The window caption of a plot is built from the name of the loaded file: the
 part of the path after the last '/' and before the last '.'. This module
 writes out Python's `str.rfind` and slice semantics (negative and
 out-of-range bounds included) and proves what the extraction returns for
 every shape of path.
 */
module FileName {

  /** Python `s.rfind(c)`: the index of the last occurrence of `c` in `s`, or -1. */
  function RFind(s: string, c: char): (r: int)
    ensures -1 <= r < |s|
    ensures 0 <= r ==> s[r] == c
    ensures forall i :: r < i < |s| ==> s[i] != c
  {
    if |s| == 0 then -1
    else if s[|s| - 1] == c then |s| - 1
    else RFind(s[..|s| - 1], c)
  }

  /** Python's adjustment of one slice bound against a sequence of length `n`:
      a negative bound counts from the end, and both ends saturate. */
  function SliceBound(i: int, n: nat): (b: nat)
    ensures b <= n
    ensures 0 <= i <= n ==> b == i
    ensures n < i ==> b == n
    ensures i < 0 <= i + n ==> b == i + n
    ensures i + n < 0 ==> b == 0
  {
    if i < 0 then (if i + n < 0 then 0 else i + n)
    else if i > n then n
    else i
  }

  /** Python `s[start:stop]` (step 1). */
  function Slice(s: string, start: int, stop: int): (r: string)
    ensures SliceBound(start, |s|) + |r| <= |s|
    ensures r == s[SliceBound(start, |s|)..SliceBound(start, |s|) + |r|]
    ensures |r| == if SliceBound(start, |s|) < SliceBound(stop, |s|)
                   then SliceBound(stop, |s|) - SliceBound(start, |s|) else 0
  {
    var lo := SliceBound(start, |s|);
    var hi := SliceBound(stop, |s|);
    if lo < hi then s[lo..hi] else []
  }

  /** `find_file_name`: the slice between the last '/' (exclusive) and the
      last '.' (exclusive), with Python slice semantics. The result is a
      contiguous piece of the path that starts just after the last '/'
      (at index 0 when there is none), so it never contains a '/'. */
  function FindFileName(path: string): (name: string)
    ensures RFind(path, '/') + 1 + |name| <= |path|
    ensures name == path[RFind(path, '/') + 1..RFind(path, '/') + 1 + |name|]
    ensures '/' !in name
  {
    var lastSep := RFind(path, '/');
    var lastDot := RFind(path, '.');
    var name := Slice(path, lastSep + 1, lastDot);
    assert SliceBound(lastSep + 1, |path|) == lastSep + 1;
    assert forall k :: 0 <= k < |name| ==> name[k] != '/' by {
      forall k | 0 <= k < |name|
        ensures name[k] != '/'
      {
        assert name[k] == path[lastSep + 1 + k];
      }
    }
    name
  }

  /** A directory prefix: empty, or ending in a separator. */
  predicate IsDirPrefix(dir: string)
  {
    dir == [] || dir[|dir| - 1] == '/'
  }

  /** Round trip: a path assembled from a directory, a stem and an extension
      gives back the stem. The stem may itself contain dots; only the
      extension after the last dot is dropped. */
  lemma StemOfComposedPath(dir: string, stem: string, ext: string)
    requires IsDirPrefix(dir)
    requires '/' !in stem && '/' !in ext && '.' !in ext
    ensures FindFileName(dir + stem + "." + ext) == stem
  {
    var path := dir + stem + "." + ext;
    var dot := |dir| + |stem|;
    assert path[dot] == '.';
    assert forall i :: dot < i < |path| ==> path[i] == ext[i - dot - 1];
    assert RFind(path, '.') == dot;
    forall i | |dir| <= i < |path|
      ensures path[i] != '/'
    {
      if i < dot {
        assert path[i] == stem[i - |dir|];
      } else if i > dot {
        assert path[i] == ext[i - dot - 1];
      }
    }
    if dir == [] {
      assert RFind(path, '/') == -1;
    } else {
      assert path[|dir| - 1] == dir[|dir| - 1];
      assert RFind(path, '/') == |dir| - 1;
    }
  }

  /** A path in a sub-directory. */
  lemma CsvExample()
    ensures FindFileName("dir/name.csv") == "name"
  {
    var dir, stem, ext := "dir/", "name", "csv";
    assert '/' !in stem && '/' !in ext && '.' !in ext;
    StemOfComposedPath(dir, stem, ext);
    assert dir + stem + "." + ext == "dir/name.csv";
  }

  /** The file name the program opens in its own entry point. */
  lemma EntryPointExample()
    ensures FindFileName("small_test.csv") == "small_test"
  {
    var stem, ext := "small_test", "csv";
    assert '/' !in stem && '/' !in ext && '.' !in ext;
    StemOfComposedPath("", stem, ext);
    assert "" + stem + "." + ext == "small_test.csv";
  }

  /** Paths whose last component has no dot: `rfind` returns -1 and the slice
      stop -1 means "one before the end", so the last character of the name is
      dropped; a dot inside the directory part makes the slice empty. */
  lemma DotlessBaseName(dir: string, base: string)
    requires IsDirPrefix(dir)
    requires '/' !in base && '.' !in base
    ensures FindFileName(dir + base) ==
      if '.' in dir || base == [] then [] else base[..|base| - 1]
  {
    var path := dir + base;
    forall i | |dir| <= i < |path|
      ensures path[i] != '/' && path[i] != '.'
    {
      assert path[i] == base[i - |dir|];
    }
    if dir == [] {
      assert RFind(path, '/') == -1;
    } else {
      assert path[|dir| - 1] == dir[|dir| - 1];
      assert RFind(path, '/') == |dir| - 1;
    }
    var name := FindFileName(path);
    if '.' in dir {
      var j :| 0 <= j < |dir| && dir[j] == '.';
      assert path[j] == '.';
      assert RFind(path, '.') >= j;
      assert RFind(path, '.') < |dir|;
      assert name == [];
    } else {
      forall i | 0 <= i < |path|
        ensures path[i] != '.'
      {
        if i < |dir| {
          assert path[i] == dir[i];
        }
      }
      assert RFind(path, '.') == -1;
      if base != [] {
        assert name == path[|dir|..|path| - 1];
        assert name == base[..|base| - 1];
      }
    }
  }

  /** A path without an extension loses the last letter of its name. */
  lemma DotlessExample()
    ensures FindFileName("dir/name") == "nam"
  {
    DotlessBaseName("dir/", "name");
    assert "dir/" + "name" == "dir/name";
  }
}

=== FILE: grid_item.dfy ===
/**
 The coordinate grid of the viewport. Its state is the size `high` handed to
 `setSize` (in the item's own units) and the net number of times its
 transform has been doubled by `scale(...)`; the transform starts at a
 factor of 5, so one grid cell is 5 * 2^level world units wide and the
 whole grid is high * 5 * 2^level wide.

 Python computes `high // 2` on an int and `high // 0.5` on a float; both
 are modelled on `int`: floor division by 2 and exact doubling.
 */
module GridItem {

  /** The two factors the widget passes to `setScale`. */
  datatype Factor = Two | Half

  datatype Grid = Grid(high: int, level: int)

  /** A freshly built grid of the given size. */
  function Init(high: int): (g: Grid)
    ensures g.high == high && g.level == 0
  {
    Grid(high, 0)
  }

  /** `setScale(f)`: divide the size by `f` (floor division), round an odd
      size up to the next even number, and multiply the transform by `f`.
      The new size is the least even number not below the quotient. */
  function SetScale(g: Grid, f: Factor): (r: Grid)
    ensures r.high % 2 == 0
    ensures f == Two ==> g.high / 2 <= r.high < g.high / 2 + 2 && r.level == g.level + 1
    // coarsening an even grid never covers less of the world, and widens it
    // by at most one new cell (two old cells, one on each side)
    ensures f == Two && g.high % 2 == 0 ==> g.high <= 2 * r.high <= g.high + 2
    ensures f == Half ==> r.high == 2 * g.high && r.level == g.level - 1
  {
    var q := match f case Two => g.high / 2 case Half => 2 * g.high;
    var h := if q % 2 != 0 then q + 1 else q;
    Grid(h, match f case Two => g.level + 1 case Half => g.level - 1)
  }

  /** `doubleUpSpacing`: coarser grid, cells twice as wide. */
  function DoubleUp(g: Grid): (r: Grid)
    ensures r.level == g.level + 1 && r.high % 2 == 0
    ensures g.high / 2 <= r.high <= g.high / 2 + 1
  {
    SetScale(g, Two)
  }

  /** `doubleDownSpacing`: finer grid, cells half as wide. */
  function DoubleDown(g: Grid): (r: Grid)
    ensures r == Grid(2 * g.high, g.level - 1)
  {
    SetScale(g, Half)
  }

  /** Refining and then coarsening an even-sized grid restores it exactly. */
  lemma DownThenUpRestores(g: Grid)
    requires g.high % 2 == 0
    ensures DoubleUp(DoubleDown(g)) == g
  {
  }

  /** Coarsening and then refining restores the size exactly when it is a
      multiple of four: otherwise the rounding to an even size is lossy. */
  lemma UpThenDownRestoresIff(g: Grid)
    ensures DoubleDown(DoubleUp(g)) == g <==> g.high % 4 == 0
  {
  }

  /** `k` successive calls of `setScale(f)`. */
  function Iterate(g: Grid, f: Factor, k: nat): Grid
    decreases k
  {
    if k == 0 then g else Iterate(SetScale(g, f), f, k - 1)
  }

  lemma {:induction false} IterateLast(g: Grid, f: Factor, k: nat)
    ensures Iterate(g, f, k + 1) == SetScale(Iterate(g, f, k), f)
    decreases k
  {
    if k > 0 {
      IterateLast(SetScale(g, f), f, k - 1);
    }
  }

  /** After at least one step the size is even; the level moves by one per step. */
  lemma {:induction false} IterateShape(g: Grid, f: Factor, k: nat)
    ensures k > 0 ==> Iterate(g, f, k).high % 2 == 0
    ensures Iterate(g, f, k).level == g.level + (if f == Two then k else -(k as int))
    decreases k
  {
    if k > 0 {
      IterateShape(SetScale(g, f), f, k - 1);
    }
  }

  /** `k` refinements followed by `k` coarsenings restore an even-sized grid. */
  lemma {:induction false} DownUpIterateRestores(g: Grid, k: nat)
    requires g.high % 2 == 0
    ensures Iterate(Iterate(g, Half, k), Two, k) == g
    decreases k
  {
    if k > 0 {
      var g' := DoubleDown(g);
      DownUpIterateRestores(g', k - 1);
      IterateLast(Iterate(g', Half, k - 1), Two, k - 1);
      DownThenUpRestores(g);
    }
  }
}

=== FILE: view_properties.dfy ===
/**
 Properties of the view widget over sequences of input events: the counter
 band, the spacing of LOD changes, closed forms for runs of same-direction
 wheel ticks, the zoom-in/zoom-out round trip, and delta-based panning.
 */
module ViewProperties {
  import opened GridItem
  import opened ViewWidget

  /** `n` copies of `x`. */
  function Repeat<T>(x: T, n: nat): (s: seq<T>)
    ensures |s| == n
    decreases n
  {
    if n == 0 then [] else Repeat(x, n - 1) + [x]
  }

  /** A wheel event without Control whose delta counts as a positive tick. */
  predicate IsZoomIn(e: Event)
  {
    e.Wheel? && !e.ctrl && WheelDelta(e.angleX, e.angleY) > 0
  }

  /** A wheel event without Control whose delta counts as a negative tick. */
  predicate IsZoomOut(e: Event)
  {
    e.Wheel? && !e.ctrl && WheelDelta(e.angleX, e.angleY) <= 0
  }

  lemma {:induction false} RunAppend(v: View, evs: seq<Event>, e: Event)
    ensures Run(v, evs + [e]) == Step(Run(v, evs), e)
    decreases |evs|
  {
    if evs == [] {
      assert evs + [e] == [e];
    } else {
      assert (evs + [e])[1..] == evs[1..] + [e];
      RunAppend(Step(v, evs[0]), evs[1..], e);
    }
  }

  lemma {:induction false} RunConcat(v: View, a: seq<Event>, b: seq<Event>)
    ensures Run(v, a + b) == Run(Run(v, a), b)
    decreases |a|
  {
    if a == [] {
      assert a + b == b;
    } else {
      assert (a + b)[1..] == a[1..] + b;
      RunConcat(Step(v, a[0]), a[1..], b);
    }
  }

  /** Starting inside the band, the counter stays strictly between -5 and 5
      whatever events arrive. */
  lemma {:induction false} CounterStaysInBand(v: View, evs: seq<Event>)
    requires InBand(v.counter)
    ensures InBand(Run(v, evs).counter)
    decreases |evs|
  {
    if evs != [] {
      CounterStaysInBand(Step(v, evs[0]), evs[1..]);
    }
  }

  /** The grid calls only ever grow, and every call costs five ticks: over
      any event sequence, five times the number of new grid calls plus the
      final distance of the counter from 0 is at most its initial distance
      plus the number of events. From counter 0, n events make at most n / 5
      grid calls. */
  lemma {:induction false} LodCallsSpacedOut(v: View, evs: seq<Event>)
    ensures |v.calls| <= |Run(v, evs).calls|
    ensures Run(v, evs).calls[..|v.calls|] == v.calls
    ensures Threshold * (|Run(v, evs).calls| - |v.calls|) + Abs(Run(v, evs).counter)
            <= Abs(v.counter) + |evs|
    decreases |evs|
  {
    if evs != [] {
      var v' := Step(v, evs[0]);
      LodCallsSpacedOut(v', evs[1..]);
      assert v'.calls[..|v.calls|] == v.calls;
      assert Run(v, evs).calls[..|v'.calls|][..|v.calls|] == Run(v, evs).calls[..|v.calls|];
    }
  }

  /** Counter after `n` positive ticks from `c`: it counts up, modulo 5
      once it is no longer negative. */
  function ZoomInCounter(c: int, n: nat): int
  {
    if c + n < 0 then c + n else (c + n) % Threshold
  }

  /** Number of grid calls `n` positive ticks from counter `c` make. */
  function ZoomInFired(c: int, n: nat): nat
  {
    if c + n < 0 then 0 else (c + n) / Threshold
  }

  /** Counter after `n` negative ticks from `c`: it counts down, modulo 5
      once it is no longer positive. */
  function ZoomOutCounter(c: int, n: nat): int
  {
    if c - n > 0 then c - n else -((n - c) % Threshold)
  }

  /** Number of grid calls `n` negative ticks from counter `c` make. */
  function ZoomOutFired(c: int, n: nat): nat
  {
    if c - n > 0 then 0 else (n - c) / Threshold
  }

  /** Sum of the wheel deltas of the wheel events among `evs`. */
  function DeltaSum(evs: seq<Event>): int
    decreases |evs|
  {
    if evs == [] then 0
    else
      var e := evs[|evs| - 1];
      DeltaSum(evs[..|evs| - 1]) + (if e.Wheel? then WheelDelta(e.angleX, e.angleY) else 0)
  }

  predicate AllZoomIn(evs: seq<Event>)
  {
    forall i :: 0 <= i < |evs| ==> IsZoomIn(evs[i])
  }

  predicate AllZoomOut(evs: seq<Event>)
  {
    forall i :: 0 <= i < |evs| ==> IsZoomOut(evs[i])
  }

  /** Reference state after `n` positive ticks whose deltas sum to `ds`: the
      grid has been refined once per completed group of five ticks and the
      distance exponent has grown by `ds`. */
  function ZoomInClosed(v: View, n: nat, ds: int): View
  {
    var k := ZoomInFired(v.counter, n);
    v.(counter := ZoomInCounter(v.counter, n),
       grid := Iterate(v.grid, Half, k),
       calls := v.calls + Repeat(Half, k),
       distancePow := v.distancePow + ds)
  }

  /** Reference state after `n` negative ticks whose deltas sum to `ds`,
      symmetric to `ZoomInClosed` with coarsening. */
  function ZoomOutClosed(v: View, n: nat, ds: int): View
  {
    var k := ZoomOutFired(v.counter, n);
    v.(counter := ZoomOutCounter(v.counter, n),
       grid := Iterate(v.grid, Two, k),
       calls := v.calls + Repeat(Two, k),
       distancePow := v.distancePow + ds)
  }

  /** One more positive tick: the counter reaches 5 exactly when one more
      grid call is due, and otherwise moves up by one. */
  lemma ZoomInArith(c: int, n: nat)
    requires InBand(c) && n > 0
    ensures InBand(ZoomInCounter(c, n - 1))
    ensures ZoomInCounter(c, n - 1) + 1 == Threshold ==>
      ZoomInCounter(c, n) == 0 && ZoomInFired(c, n) == ZoomInFired(c, n - 1) + 1
    ensures ZoomInCounter(c, n - 1) + 1 != Threshold ==>
      ZoomInCounter(c, n) == ZoomInCounter(c, n - 1) + 1 && ZoomInFired(c, n) == ZoomInFired(c, n - 1)
  {
  }

  /** One more negative tick: the counter reaches -5 exactly when one more
      grid call is due, and otherwise moves down by one. */
  lemma ZoomOutArith(c: int, n: nat)
    requires InBand(c) && n > 0
    ensures InBand(ZoomOutCounter(c, n - 1))
    ensures ZoomOutCounter(c, n - 1) - 1 == -Threshold ==>
      ZoomOutCounter(c, n) == 0 && ZoomOutFired(c, n) == ZoomOutFired(c, n - 1) + 1
    ensures ZoomOutCounter(c, n - 1) - 1 != -Threshold ==>
      ZoomOutCounter(c, n) == ZoomOutCounter(c, n - 1) - 1 && ZoomOutFired(c, n) == ZoomOutFired(c, n - 1)
  {
  }

  /** One positive tick, field by field. */
  lemma ZoomInStep(s: View, e: Event)
    requires InBand(s.counter) && IsZoomIn(e)
    ensures var r := Step(s, e);
      && r.counter == (if s.counter + 1 == Threshold then 0 else s.counter + 1)
      && r.grid == (if s.counter + 1 == Threshold then DoubleDown(s.grid) else s.grid)
      && r.calls == (if s.counter + 1 == Threshold then s.calls + [Half] else s.calls)
      && r.distancePow == s.distancePow + WheelDelta(e.angleX, e.angleY)
      && r.(counter := s.counter, grid := s.grid, calls := s.calls, distancePow := s.distancePow) == s
  {
  }

  /** One negative tick, field by field. */
  lemma ZoomOutStep(s: View, e: Event)
    requires InBand(s.counter) && IsZoomOut(e)
    ensures var r := Step(s, e);
      && r.counter == (if s.counter - 1 == -Threshold then 0 else s.counter - 1)
      && r.grid == (if s.counter - 1 == -Threshold then DoubleUp(s.grid) else s.grid)
      && r.calls == (if s.counter - 1 == -Threshold then s.calls + [Two] else s.calls)
      && r.distancePow == s.distancePow + WheelDelta(e.angleX, e.angleY)
      && r.(counter := s.counter, grid := s.grid, calls := s.calls, distancePow := s.distancePow) == s
  {
  }

  /** The reference states advance by exactly one tick. */
  lemma ZoomInClosedStep(v: View, e: Event, n: nat, ds: int)
    requires InBand(v.counter) && IsZoomIn(e) && n > 0
    ensures Step(ZoomInClosed(v, n - 1, ds), e) == ZoomInClosed(v, n, ds + WheelDelta(e.angleX, e.angleY))
  {
    var s := ZoomInClosed(v, n - 1, ds);
    var k := ZoomInFired(v.counter, n - 1);
    ZoomInArith(v.counter, n);
    ZoomInStep(s, e);
    IterateLast(v.grid, Half, k);
    assert v.calls + Repeat(Half, k) + [Half] == v.calls + Repeat(Half, k + 1);
    var r := Step(s, e);
    var goal := ZoomInClosed(v, n, ds + WheelDelta(e.angleX, e.angleY));
    assert r.distancePow == goal.distancePow;
    assert r.counter == goal.counter && r.grid == goal.grid && r.calls == goal.calls;
  }

  lemma ZoomOutClosedStep(v: View, e: Event, n: nat, ds: int)
    requires InBand(v.counter) && IsZoomOut(e) && n > 0
    ensures Step(ZoomOutClosed(v, n - 1, ds), e) == ZoomOutClosed(v, n, ds + WheelDelta(e.angleX, e.angleY))
  {
    var s := ZoomOutClosed(v, n - 1, ds);
    var k := ZoomOutFired(v.counter, n - 1);
    ZoomOutArith(v.counter, n);
    ZoomOutStep(s, e);
    IterateLast(v.grid, Two, k);
    assert v.calls + Repeat(Two, k) + [Two] == v.calls + Repeat(Two, k + 1);
    var r := Step(s, e);
    var goal := ZoomOutClosed(v, n, ds + WheelDelta(e.angleX, e.angleY));
    assert r.distancePow == goal.distancePow;
    assert r.counter == goal.counter && r.grid == goal.grid && r.calls == goal.calls;
  }

  /** Any run of positive ticks from inside the band ends in the reference
      state `ZoomInClosed`, whatever the individual deltas; each tick moves
      the distance exponent up by at least one. */
  lemma {:induction false} ZoomInRun(v: View, evs: seq<Event>)
    requires InBand(v.counter) && AllZoomIn(evs)
    ensures Run(v, evs) == ZoomInClosed(v, |evs|, DeltaSum(evs))
    ensures DeltaSum(evs) >= |evs|
    decreases |evs|
  {
    if evs == [] {
      assert Repeat(Half, 0) == [];
      assert v.calls + [] == v.calls;
    } else {
      var init, last := evs[..|evs| - 1], evs[|evs| - 1];
      assert evs == init + [last];
      assert IsZoomIn(last);
      ZoomInRun(v, init);
      RunAppend(v, init, last);
      ZoomInClosedStep(v, last, |evs|, DeltaSum(init));
    }
  }

  /** Any run of non-positive ticks from inside the band ends in the
      reference state `ZoomOutClosed`; the distance exponent never grows. */
  lemma {:induction false} ZoomOutRun(v: View, evs: seq<Event>)
    requires InBand(v.counter) && AllZoomOut(evs)
    ensures Run(v, evs) == ZoomOutClosed(v, |evs|, DeltaSum(evs))
    ensures DeltaSum(evs) <= 0
    decreases |evs|
  {
    if evs == [] {
      assert Repeat(Two, 0) == [];
      assert v.calls + [] == v.calls;
    } else {
      var init, last := evs[..|evs| - 1], evs[|evs| - 1];
      assert evs == init + [last];
      assert IsZoomOut(last);
      ZoomOutRun(v, init);
      RunAppend(v, init, last);
      ZoomOutClosedStep(v, last, |evs|, DeltaSum(init));
    }
  }

  /** Any five positive ticks from counter 0 refine the grid exactly once and
      leave the counter at 0. */
  lemma FiveZoomInTicks(v: View, evs: seq<Event>)
    requires v.counter == 0 && |evs| == 5 && AllZoomIn(evs)
    ensures Run(v, evs).counter == 0
    ensures Run(v, evs).calls == v.calls + [Half]
    ensures Run(v, evs).grid == DoubleDown(v.grid)
    ensures Run(v, evs).distancePow == v.distancePow + DeltaSum(evs)
  {
    ZoomInRun(v, evs);
    assert Repeat(Half, 1) == [Half];
  }

  /** Any five negative ticks from counter 0 coarsen the grid exactly once
      and leave the counter at 0. */
  lemma FiveZoomOutTicks(v: View, evs: seq<Event>)
    requires v.counter == 0 && |evs| == 5 && AllZoomOut(evs)
    ensures Run(v, evs).counter == 0
    ensures Run(v, evs).calls == v.calls + [Two]
    ensures Run(v, evs).grid == DoubleUp(v.grid)
    ensures Run(v, evs).distancePow == v.distancePow + DeltaSum(evs)
  {
    ZoomOutRun(v, evs);
    assert Repeat(Two, 1) == [Two];
  }

  /** A wheel event with both components zero is a negative tick: it
      lowers the counter, coarsening the grid when the counter was at -4,
      and leaves the distance alone. */
  lemma ZeroDeltaIsNegativeTick(v: View)
    requires InBand(v.counter)
    ensures IsZoomOut(Wheel(0, 0, false))
    ensures Step(v, Wheel(0, 0, false)).counter == if v.counter == -4 then 0 else v.counter - 1
    ensures Step(v, Wheel(0, 0, false)).grid == if v.counter == -4 then DoubleUp(v.grid) else v.grid
    ensures Step(v, Wheel(0, 0, false)).distancePow == v.distancePow
  {
  }

  /** With Control held a wheel event changes only the field of view. */
  lemma CtrlWheelOnlyChangesFov(v: View, angleX: int, angleY: int)
    ensures Step(v, Wheel(angleX, angleY, true)) == v.(fovPow := v.fovPow + WheelDelta(angleX, angleY))
  {
  }

  /** From a counter in [-4, 0], `n` positive ticks followed by `n`
      negative ticks bring the counter back to where it started and undo
      every refinement they made. */
  lemma RoundTripArith(c: int, n: nat)
    requires -Threshold < c <= 0
    ensures ZoomOutCounter(ZoomInCounter(c, n), n) == c
    ensures ZoomOutFired(ZoomInCounter(c, n), n) == ZoomInFired(c, n)
  {
    if c + n >= 0 {
      var q, m := (c + n) / Threshold, (c + n) % Threshold;
      assert n - m == Threshold * q - c;
      assert (Threshold * q - c) / Threshold == q && (Threshold * q - c) % Threshold == -c;
    }
  }

  /** From a counter in [-4, 0] on an even grid, `n` positive ticks followed
      by `n` negative ticks bring the counter back to its start and the grid
      back to its original size and transform: every refinement is undone by
      a matching coarsening. The deltas of the individual ticks play no
      part. */
  lemma ZoomInThenOutRestores(v: View, ins: seq<Event>, outs: seq<Event>)
    requires -Threshold < v.counter <= 0 && v.grid.high % 2 == 0
    requires AllZoomIn(ins) && AllZoomOut(outs) && |ins| == |outs|
    ensures Run(v, ins + outs).counter == v.counter
    ensures Run(v, ins + outs).grid == v.grid
    ensures Run(v, ins + outs).calls
            == v.calls + Repeat(Half, ZoomInFired(v.counter, |ins|)) + Repeat(Two, ZoomInFired(v.counter, |ins|))
    ensures v.counter == 0 ==> ZoomInFired(v.counter, |ins|) == |ins| / Threshold
    ensures Run(v, ins + outs).distancePow == v.distancePow + DeltaSum(ins) + DeltaSum(outs)
  {
    var n := |ins|;
    RunConcat(v, ins, outs);
    ZoomInRun(v, ins);
    var s := Run(v, ins);
    ZoomOutRun(s, outs);
    RoundTripArith(v.counter, n);
    DownUpIterateRestores(v.grid, ZoomInFired(v.counter, n));
  }

  /** The round trip needs a counter of at most 0: from any positive counter
      `c`, `5 - c` positive ticks reach 5 and refine the grid, and as many
      negative ticks then only bring the counter down to `c - 5`, so the
      grid stays refined. */
  lemma PositiveCounterBreaksRoundTrip(v: View, ins: seq<Event>, outs: seq<Event>)
    requires 0 < v.counter < Threshold
    requires AllZoomIn(ins) && AllZoomOut(outs) && |ins| == |outs| == Threshold - v.counter
    ensures Run(v, ins + outs).counter == v.counter - Threshold
    ensures Run(v, ins + outs).grid == DoubleDown(v.grid) != v.grid
  {
    RunConcat(v, ins, outs);
    ZoomInRun(v, ins);
    var s := Run(v, ins);
    assert s.counter == 0 && ZoomInFired(v.counter, |ins|) == 1;
    ZoomOutRun(s, outs);
    assert ZoomOutFired(s.counter, |outs|) == 0;
  }

  /** The events of a drag through the positions `ps`. */
  function Moves(ps: seq<Pos>): (evs: seq<Event>)
    ensures |evs| == |ps|
    decreases |ps|
  {
    if ps == [] then [] else Moves(ps[..|ps| - 1]) + [Move(ps[|ps| - 1])]
  }

  /** After a release the first move records the position and does not pan. */
  lemma FirstMoveAfterReleaseDoesNotPan(v: View, p: Pos)
    ensures Run(v, [Release, Move(p)]).offset == v.offset
    ensures Run(v, [Release, Move(p)]).prevPan == Some(p)
  {
    var v1 := Step(v, Release);
    assert [Release, Move(p)][1..] == [Move(p)];
    assert [Move(p)][1..] == [];
    assert Run(v, [Release, Move(p)]) == Run(v1, [Move(p)]);
    assert Run(v1, [Move(p)]) == Run(Step(v1, Move(p)), []);
  }

  /** A drag through p0 .. pn that starts without a recorded position pans by
      exactly pn - p0: the per-move deltas telescope. Nothing but the drag
      state changes. */
  lemma {:induction false} DragPansByDisplacement(v: View, ps: seq<Pos>)
    requires v.prevPan == None && |ps| > 0
    ensures Run(v, Moves(ps)).offset == Plus(v.offset, Minus(ps[|ps| - 1], ps[0]))
    ensures Run(v, Moves(ps)).prevPan == Some(ps[|ps| - 1])
    ensures Run(v, Moves(ps)).(offset := v.offset, prevPan := v.prevPan) == v
    decreases |ps|
  {
    var last := ps[|ps| - 1];
    var init := ps[..|ps| - 1];
    RunAppend(v, Moves(init), Move(last));
    if |ps| == 1 {
      assert Moves(init) == [];
    } else {
      DragPansByDisplacement(v, init);
      assert init[0] == ps[0];
    }
  }

  /** Releasing and dragging again through ps pans by the displacement of the
      new drag alone. */
  lemma ReleaseThenDrag(v: View, ps: seq<Pos>)
    requires |ps| > 0
    ensures Run(v, [Release] + Moves(ps)).offset == Plus(v.offset, Minus(ps[|ps| - 1], ps[0]))
  {
    RunConcat(v, [Release], Moves(ps));
    DragPansByDisplacement(Run(v, [Release]), ps);
  }
}

=== FILE: view_widget.dfy ===
/**
 The 3D view widget's input handling: the wheel-tick counter that drives the
 grid's level of detail, the camera zoom, and drag panning.

 Camera zoom is multiplicative: every wheel event multiplies either the
 camera distance or the field of view by 0.999^delta. Instead of the floats
 the model keeps the accumulated exponents, so that after any sequence of
 events `distance == d0 * 0.999^distancePow` and `fov == f0 * 0.999^fovPow`
 in exact arithmetic (the floats' rounding is not modelled).
 `pan` is modelled by its effect on an accumulated integer offset.
 */
module ViewWidget {
  import opened GridItem

  datatype Option<T> = None | Some(value: T)

  /** A cursor position in widget pixels, or a pan offset. */
  datatype Pos = Pos(x: int, y: int)

  function Plus(a: Pos, b: Pos): Pos
  {
    Pos(a.x + b.x, a.y + b.y)
  }

  function Minus(a: Pos, b: Pos): Pos
  {
    Pos(a.x - b.x, a.y - b.y)
  }

  /** The widget state the handlers read and write.
      - `counter`: `scale_iterator`, the wheel ticks since the last LOD change
      - `grid`: the grid item the counter rescales
      - `calls`: the factors passed to the grid's `setScale`, oldest first
      - `distancePow`, `fovPow`: exponents of 0.999 applied to distance and fov
      - `prevPan`: `_prev_pan_pos`, the last recorded drag position
      - `offset`: the sum of all pans applied */
  datatype View = View(
    counter: int,
    grid: Grid,
    calls: seq<Factor>,
    distancePow: int,
    fovPow: int,
    prevPan: Option<Pos>,
    offset: Pos)

  /** The input events the widget handles. `ctrl` is whether the Control
      modifier is held during a wheel event. */
  datatype Event =
    | Wheel(angleX: int, angleY: int, ctrl: bool)
    | Move(pos: Pos)
    | Release

  /** Number of same-direction ticks that triggers a LOD change. */
  const Threshold: int := 5

  /** The counter values that can occur between events. */
  predicate InBand(c: int)
  {
    -Threshold < c < Threshold
  }

  function Abs(x: int): nat
  {
    if x < 0 then -x else x
  }

  /** The widget as constructed: counter 0, no drag in progress, the camera
      at its starting distance and field of view, and a fresh grid of size
      4 * axisLength. */
  function Init(axisLength: int): (v: View)
    ensures v.counter == 0
    ensures v.calls == [] && v.prevPan == None
    ensures v.grid == GridItem.Init(4 * axisLength)
    ensures v.distancePow == 0 && v.fovPow == 0 && v.offset == Pos(0, 0)
  {
    View(0, GridItem.Init(4 * axisLength), [], 0, 0, None, Pos(0, 0))
  }

  /** The wheel delta: the horizontal component, or the vertical one when the
      horizontal one is zero. */
  function WheelDelta(angleX: int, angleY: int): (d: int)
    ensures angleX != 0 ==> d == angleX
    ensures angleX == 0 ==> d == angleY
    ensures d == 0 <==> angleX == 0 && angleY == 0
  {
    if angleX == 0 then angleY else angleX
  }

  /** `wheelEvent`. With Control held only the field of view changes.
      Otherwise the counter moves one step up for a positive delta and one
      step down for any other delta (zero included); reaching +5 refines the
      grid, reaching -5 coarsens it, and either way the counter restarts at
      0; the distance changes by the delta. */
  function OnWheel(v: View, angleX: int, angleY: int, ctrl: bool): (r: View)
    // the drag state is untouched
    ensures r.prevPan == v.prevPan && r.offset == v.offset
    // the counter never leaves the band
    ensures InBand(v.counter) ==> InBand(r.counter)
    // at most one grid call is added, and the grid changes only by it
    ensures |v.calls| <= |r.calls| <= |v.calls| + 1 && r.calls[..|v.calls|] == v.calls
    ensures r.grid == if |r.calls| == |v.calls| then v.grid else SetScale(v.grid, r.calls[|v.calls|])
    // a grid call uses up a full threshold's worth of counter movement
    ensures Threshold * (|r.calls| - |v.calls|) + Abs(r.counter) <= Abs(v.counter) + 1
  {
    var delta := WheelDelta(angleX, angleY);
    if ctrl then
      v.(fovPow := v.fovPow + delta)
    else
      var c := v.counter + (if delta > 0 then 1 else -1);
      var zoomed := v.(distancePow := v.distancePow + delta);
      if c == Threshold then
        zoomed.(counter := 0, grid := DoubleDown(v.grid), calls := v.calls + [Half])
      else if c == -Threshold then
        zoomed.(counter := 0, grid := DoubleUp(v.grid), calls := v.calls + [Two])
      else
        zoomed.(counter := c)
  }

  /** `mouseMoveEvent`: the first move of a drag only records the position;
      every later one pans by the difference from the previous position. */
  function OnMove(v: View, p: Pos): (r: View)
    // the level of detail and the zoom are untouched
    ensures r.counter == v.counter && r.grid == v.grid && r.calls == v.calls
    ensures r.distancePow == v.distancePow && r.fovPow == v.fovPow
    ensures r.prevPan == Some(p)
  {
    match v.prevPan
    case None => v.(prevPan := Some(p))
    case Some(q) => v.(offset := Plus(v.offset, Minus(p, q)), prevPan := Some(p))
  }

  /** `mouseReleaseEvent`: forget the drag position, so the next drag starts
      afresh. */
  function OnRelease(v: View): (r: View)
    ensures r.prevPan == None
    ensures r.(prevPan := v.prevPan) == v
  {
    v.(prevPan := None)
  }

  function Step(v: View, e: Event): View
  {
    match e
    case Wheel(ax, ay, ctrl) => OnWheel(v, ax, ay, ctrl)
    case Move(p) => OnMove(v, p)
    case Release => OnRelease(v)
  }

  /** The events handled in delivery order. */
  function Run(v: View, evs: seq<Event>): View
    decreases |evs|
  {
    if evs == [] then v else Run(Step(v, evs[0]), evs[1..])
  }
}

=== FILE: visibility.dfy ===
/**
 Per-channel show/hide toggles of the plot dialog. Each channel has a check
 box and a line; the line is in the view's scene exactly when the box is
 checked. Clicking a box flips its state and then adds or removes the line;
 the bulk "check all" / "uncheck all" buttons click only the boxes whose
 state differs from the target.
 */
module Visibility {

  /** Number of entries in the colour palette; channel i takes colour i, so
      a dialog holds at most this many channels. */
  const PaletteSize: nat := 32

  /** What the view's scene can hold: one line per channel, the two axes
      and the grid. */
  datatype SceneItem = ChannelLine(key: string) | AxisX | AxisY | GridLines

  /** The dialog's toggle state.
      - `keys`: the channel keys in creation order (the dictionary's order)
      - `checked`: each key's check-box state
      - `scene`: the items currently added to the view */
  datatype Panel = Panel(keys: seq<string>, checked: map<string, bool>, scene: set<SceneItem>)

  predicate Distinct(ks: seq<string>)
  {
    forall i, j :: 0 <= i < j < |ks| ==> ks[i] != ks[j]
  }

  /** The keys are distinct and are exactly the boxes. */
  ghost predicate WellFormed(p: Panel)
  {
    Distinct(p.keys) && (forall k :: k in p.checked <==> k in p.keys)
  }

  /** Every channel line is in the scene exactly when its box is checked,
      and no line of an unknown channel is there. */
  ghost predicate Consistent(p: Panel)
  {
    && (forall k :: k in p.checked ==> (ChannelLine(k) in p.scene <==> p.checked[k]))
    && (forall k :: ChannelLine(k) in p.scene ==> k in p.checked)
  }

  /** The dialog as built: every box checked, every line added, then the two
      axes and the grid. */
  function Init(keys: seq<string>): (p: Panel)
    requires Distinct(keys) && |keys| <= PaletteSize
    ensures WellFormed(p) && Consistent(p)
    ensures p.keys == keys && p.checked.Keys == set k | k in keys
    ensures forall k :: k in p.checked ==> p.checked[k]
    // the scene holds every item except the lines of unknown channels
    ensures forall it: SceneItem :: it in p.scene <==> (it.ChannelLine? ==> it.key in keys)
    ensures AxisX in p.scene && AxisY in p.scene && GridLines in p.scene
  {
    Panel(keys,
          map k | k in keys :: true,
          (set k | k in keys :: ChannelLine(k)) + {AxisX, AxisY, GridLines})
  }

  /** `press_check_box(name)`: show the channel's line if its box is checked,
      hide it otherwise. Nothing else in the scene changes. */
  function PressCheckBox(p: Panel, name: string): (r: Panel)
    requires name in p.checked
    ensures r.keys == p.keys && r.checked == p.checked
    ensures ChannelLine(name) in r.scene <==> p.checked[name]
    ensures forall it :: it != ChannelLine(name) ==> (it in r.scene <==> it in p.scene)
  {
    if p.checked[name] then p.(scene := p.scene + {ChannelLine(name)})
    else p.(scene := p.scene - {ChannelLine(name)})
  }

  /** `check_box.click()`: flip the box, then run `press_check_box`. The
      clicked box changes state, its line follows it, and no other box or
      scene item changes; so consistency is preserved. On a consistent panel
      the line is absent exactly when the box becomes checked, so a list
      scene would neither hold it twice nor be asked to remove a missing
      line. */
  function Click(p: Panel, name: string): (r: Panel)
    requires name in p.checked
    ensures r.keys == p.keys && r.checked.Keys == p.checked.Keys
    ensures r.checked[name] == !p.checked[name]
    ensures forall k :: k in p.checked && k != name ==> r.checked[k] == p.checked[k]
    ensures ChannelLine(name) in r.scene <==> r.checked[name]
    ensures forall it :: it != ChannelLine(name) ==> (it in r.scene <==> it in p.scene)
    ensures Consistent(p) ==> Consistent(r)
    // on a consistent panel the press inside a click adds the line only when
    // it is absent and removes it only when it is present
    ensures Consistent(p) ==> (r.checked[name] <==> ChannelLine(name) !in p.scene)
  {
    PressCheckBox(p.(checked := p.checked[name := !p.checked[name]]), name)
  }

  /** Clicking the boxes `ks` one after another, in order. */
  function ClickAll(p: Panel, ks: seq<string>): (r: Panel)
    requires forall k :: k in ks ==> k in p.checked
    ensures r.keys == p.keys && r.checked.Keys == p.checked.Keys
    ensures Consistent(p) ==> Consistent(r)
    decreases |ks|
  {
    if ks == [] then p else Click(ClickAll(p, ks[..|ks| - 1]), ks[|ks| - 1])
  }

  /** Clicking distinct boxes in turn flips exactly those boxes and moves
      only channel lines. */
  lemma {:induction false} ClickAllFlips(p: Panel, ks: seq<string>)
    requires forall k :: k in ks ==> k in p.checked
    requires Distinct(ks)
    ensures forall k :: k in p.checked ==> ClickAll(p, ks).checked[k] == (p.checked[k] != (k in ks))
    ensures forall it: SceneItem :: !it.ChannelLine? ==> (it in ClickAll(p, ks).scene <==> it in p.scene)
    decreases |ks|
  {
    if ks != [] {
      var init, last := ks[..|ks| - 1], ks[|ks| - 1];
      assert ks == init + [last];
      assert last !in init;
      ClickAllFlips(p, init);
    }
  }

  /** In the set scene, `press_check_box` on a consistent panel without a
      flip before it is a no-op. The program never makes that call (the
      handler runs only from a click), and on a list scene it would add a
      shown line a second time or fail to remove a hidden one. */
  lemma PressOnConsistentIsNoOp(p: Panel, name: string)
    requires name in p.checked && Consistent(p)
    ensures PressCheckBox(p, name) == p
  {
  }

  /** Clicking a box twice restores a consistent panel exactly. */
  lemma ClickTwiceRestores(p: Panel, name: string)
    requires name in p.checked && Consistent(p)
    ensures Click(Click(p, name), name) == p
  {
  }

  /** The keys among `ks`, in order, whose box state differs from `target`. */
  function Differing(ks: seq<string>, checked: map<string, bool>, target: bool): seq<string>
    requires forall k :: k in ks ==> k in checked
    decreases |ks|
  {
    if ks == [] then []
    else
      var last := ks[|ks| - 1];
      Differing(ks[..|ks| - 1], checked, target) + (if checked[last] != target then [last] else [])
  }

  /** `Differing` keeps exactly the keys whose state differs from the
      target, and keeps distinct keys distinct. */
  lemma {:induction false} DifferingSelects(ks: seq<string>, checked: map<string, bool>, target: bool)
    requires forall k :: k in ks ==> k in checked
    ensures forall k :: k in Differing(ks, checked, target) <==> k in ks && checked[k] != target
    ensures Distinct(ks) ==> Distinct(Differing(ks, checked, target))
    decreases |ks|
  {
    if ks != [] {
      var init := ks[..|ks| - 1];
      var last := ks[|ks| - 1];
      DifferingSelects(init, checked, target);
      assert ks == init + [last];
      if Distinct(ks) {
        assert last !in init;
      }
    }
  }

  /** The state of the bulk operation after visiting the first `i` keys:
      those boxes equal the target, the rest are as they were, the clicked
      keys are the differing ones among the first `i`, and only channel
      lines have moved in the scene. */
  ghost predicate Progress(p: Panel, r: Panel, clicked: seq<string>, i: int, target: bool)
    requires WellFormed(p)
  {
    && 0 <= i <= |p.keys|
    && r.keys == p.keys && r.checked.Keys == p.checked.Keys
    && (forall j :: 0 <= j < |p.keys| ==>
          r.checked[p.keys[j]] == if j < i then target else p.checked[p.keys[j]])
    && clicked == Differing(p.keys[..i], p.checked, target)
    && (forall k :: k in clicked ==> k in p.checked)
    && r == ClickAll(p, clicked)
    && (forall it: SceneItem :: !it.ChannelLine? ==> (it in r.scene <==> it in p.scene))
    && (Consistent(p) ==> Consistent(r))
  }

  /** Clicking one more box extends the fold by one click. */
  lemma ClickAllSnoc(p: Panel, ks: seq<string>, name: string)
    requires forall k :: k in ks ==> k in p.checked
    requires name in p.checked
    ensures ClickAll(p, ks + [name]) == Click(ClickAll(p, ks), name)
  {
  }

  /** Clicking key `i`, whose box differs, sets it to the target and leaves
      every other box as it was. */
  lemma ClickSetsBox(p: Panel, r: Panel, i: int, target: bool)
    requires WellFormed(p) && 0 <= i < |p.keys|
    requires r.checked.Keys == p.checked.Keys
    requires forall j :: 0 <= j < |p.keys| ==>
      r.checked[p.keys[j]] == if j < i then target else p.checked[p.keys[j]]
    requires r.checked[p.keys[i]] != target
    ensures forall j :: 0 <= j < |p.keys| ==>
      Click(r, p.keys[i]).checked[p.keys[j]] == if j < i + 1 then target else p.checked[p.keys[j]]
  {
  }

  /** Visiting key `i` whose box differs: it is clicked. */
  lemma ProgressClick(p: Panel, r: Panel, clicked: seq<string>, i: int, target: bool)
    requires WellFormed(p) && Progress(p, r, clicked, i, target) && i < |p.keys|
    requires r.checked[p.keys[i]] != target
    ensures Progress(p, Click(r, p.keys[i]), clicked + [p.keys[i]], i + 1, target)
  {
    var name := p.keys[i];
    assert p.keys[..i + 1][..i] == p.keys[..i];
    assert clicked + [name] == Differing(p.keys[..i + 1], p.checked, target);
    ClickAllSnoc(p, clicked, name);
    ClickSetsBox(p, r, i, target);
  }

  /** Visiting key `i` whose box already equals the target: nothing happens. */
  lemma ProgressSkip(p: Panel, r: Panel, clicked: seq<string>, i: int, target: bool)
    requires WellFormed(p) && Progress(p, r, clicked, i, target) && i < |p.keys|
    requires r.checked[p.keys[i]] == target
    ensures Progress(p, r, clicked, i + 1, target)
  {
    assert p.keys[..i + 1][..i] == p.keys[..i];
    assert clicked == Differing(p.keys[..i + 1], p.checked, target);
    forall j | 0 <= j < |p.keys|
      ensures r.checked[p.keys[j]] == if j < i + 1 then target else p.checked[p.keys[j]]
    {
    }
  }

  /** After the last key the bulk operation's promises hold. */
  lemma ProgressDone(p: Panel, r: Panel, clicked: seq<string>, target: bool)
    requires WellFormed(p) && Progress(p, r, clicked, |p.keys|, target)
    ensures WellFormed(r)
    ensures forall k :: k in r.checked ==> r.checked[k] == target
    ensures clicked == Differing(p.keys, p.checked, target)
    ensures forall k :: k in clicked <==> k in p.checked && p.checked[k] != target
    ensures Distinct(clicked)
  {
    assert p.keys[..|p.keys|] == p.keys;
    DifferingSelects(p.keys, p.checked, target);
    forall k | k in r.checked
      ensures r.checked[k] == target
    {
      var j :| 0 <= j < |p.keys| && p.keys[j] == k;
    }
  }

  /** `change_all_check_boxes(target)`: click, in key order, exactly the
      boxes whose state differs from `target`. The result is the panel those
      clicks produce; afterwards every box equals `target`, each differing
      box was clicked exactly once and no other box was, the axes and grid
      are untouched, and a consistent scene stays consistent. */
  method ChangeAllCheckBoxes(p: Panel, target: bool) returns (r: Panel, clicked: seq<string>)
    requires WellFormed(p)
    ensures WellFormed(r) && r.keys == p.keys && r.checked.Keys == p.checked.Keys
    ensures forall k :: k in r.checked ==> r.checked[k] == target
    ensures clicked == Differing(p.keys, p.checked, target)
    ensures forall k :: k in clicked <==> k in p.checked && p.checked[k] != target
    ensures Distinct(clicked)
    ensures r == ClickAll(p, clicked)
    ensures forall it: SceneItem :: !it.ChannelLine? ==> (it in r.scene <==> it in p.scene)
    ensures Consistent(p) ==> Consistent(r)
  {
    r := p;
    clicked := [];
    var i := 0;
    while i < |p.keys|
      invariant Progress(p, r, clicked, i, target)
    {
      var name := p.keys[i];
      if r.checked[name] != target {
        ProgressClick(p, r, clicked, i, target);
        r := Click(r, name);
        clicked := clicked + [name];
      } else {
        ProgressSkip(p, r, clicked, i, target);
      }
      i := i + 1;
    }
    ProgressDone(p, r, clicked, target);
  }
}
